=== FILE: README.md ===
# Booking backend: record-level model of its SQL statements and request glue

The system is an appointment-booking backend. Business owners keep services, clients,
a weekly work schedule and appointments in MySQL, and an Express server exposes them.
This project models the part of it that holds domain rules:

- the row-level meaning of the SQL statements in `Server/database.js`. Each table is an
  immutable sequence of records. A `SELECT ... WHERE` is a filter that keeps table order.
  An `UPDATE ... WHERE` rewrites matching rows in place and reports how many rows it
  matched. An `INSERT` appends a row under the next auto-increment id;
- the handler bodies in `Server/app.js` that do more than forward one call:
  - the seven-day schedule composition;
  - the changed-days update fan-out;
  - the date shift of future appointments;
  - the overlap verdict.

Modules:

- `Columns`: column types and SQL NULL.
  - Times are minutes since midnight. Dates are day numbers. Both are naturals.
  - `Option` stands for a nullable column or parameter. JavaScript `null` and `undefined` both bind as NULL.
  - `Patch`/`Patched` give the meaning of `CASE WHEN ? IS NOT NULL THEN ? ELSE col END`.
- `Rows`: the generic table operations `Select`, `UpdateWhere`, `Affected` and `Update`, with lemmas about how they compose.
- `Appointments`: the overlap query, the per-day and future reads, and the partial update.
- `Schedules`: the `dailySchedule` insert, the weekly read, and the full-overwrite update.
- `Services`, `Clients`, `Businesses`: the remaining updates and the phone lookup.
- `Handlers`: the `app.js` glue.

Behaviour worth knowing, all proved about the model:

- `checkOverlaps` writes the strict-overlap test twice and adds a strict-containment
  clause. On appointments with `start <= end`, the containment clause adds nothing. The
  query then returns exactly the appointments of that owner and date with
  `start < pEnd && pStart < end`. Touching endpoints never clash. An appointment stored
  with `end < start` can be returned by the containment clause alone.
- The seven-day handler inserts one row per value of the request object that is neither a number nor `null`. All
  these rows carry the same `workweek_id`. Without a `null` value it reports success
  whenever the object has any entry, even when the only entry is the numeric id and no
  row was created.
- The changed-days handler passes `start_time` but `endTime`, `isWorkDay` and
  `timeSlotDuration`. Suppose an element is shaped like a stored row, with `end_time`,
  `is_workDay` and `time_slot_duration`. The update then writes NULL into those three
  columns. The handler reports success once the updates resolve, whether or not a row
  had the element's id.

Behaviour of the code a reader may not expect:

- the overlap endpoint answers with one of the strings "Not overlapping" and "Overlapping";
- the seven-day composition inserts one row per value of the request that is neither a number nor `null`, however many there are;
- a `null` value in the seven-day request, or a `null` element of the changed-days array, throws on its first property read and the handler answers "Server error", after the other values' inserts or updates have been issued;
- the weekly read returns every matching row, however many the week holds;
- the changed-days update reports success even when no row has an element's id;
- future appointments are returned with every date passed through `addDayToDate`, whatever that shift does.

## Model

| member | source | states |
|---|---|---|
| Appointments.CheckOverlaps | Server/database.js:318-353 | every returned row belongs to the owner and date and satisfies the strict-overlap or the strict-containment clause; every such row of the table is returned, as many times as the table holds it |
| Appointments.CheckOverlapsIsIntervalOverlap | Server/database.js:329-333 | when every appointment of that owner and date has start <= end, the three-clause query returns exactly the owner's rows on that date with start < pEnd and pStart < end, in table order |
| Appointments.CheckOverlapsWithinDay | Server/database.js:325-334 | the query equals the owner's appointments on that date, filtered by the interval clauses |
| Appointments.OtherOwnersAndDatesIgnored | Server/database.js:327-333 | inserting appointments of other owners or other dates anywhere in the table never changes the result, whatever their times |
| Appointments.AdjacentNotReturned | Server/database.js:329-333 | a well-formed appointment that ends where the proposal starts, or starts where it ends, is never returned, whatever the other rows hold |
| Appointments.ContainmentCatchesReversedRow | Server/database.js:333 | a stored appointment with end before start is reported through the containment clause although it does not satisfy start < pEnd and pStart < end |
| Appointments.ReadAllOwnerAppointmentsInDate | Server/database.js:309-315 | returns exactly the rows with that owner and that date, each as many times as the table holds it |
| Appointments.ReadAllOwnerFutureAppointments | Server/database.js:300-306 | returns exactly the owner's rows dated today or later, each as many times as the table holds it |
| Appointments.UpdateAppointment | Server/database.js:372-404 | on the row with the id, each of start, end, service_id, date and note takes the parameter if it is non-NULL and keeps its value otherwise; id, owner and client never change; other rows are untouched; affectedRows is 0 exactly when no row has the id and at most 1 when ids are unique |
| Appointments.UpdateAppointmentAllNullKeepsTable | Server/database.js:383-387 | an update whose five field parameters are all NULL leaves the table unchanged |
| Appointments.UpdateAppointmentTwice | Server/database.js:380-403 | two updates of one appointment equal a single update taking, per field, the later non-NULL parameter, so repeating an update is idempotent |
| Services.UpdateService | Server/database.js:75-107 | same NULL-preserving semantics for name, description, duration, price and img_url on the row with the id; id and owner kept; other rows untouched |
| Services.UpdateServiceTwice | Server/database.js:83-105 | two service updates compose into one with the later non-NULL value of each column |
| Clients.UpdateClient | Server/database.js:207-218 | same NULL-preserving semantics for name, phone and email on the row with the id; id and owner kept; other rows untouched |
| Clients.FoundByNewPhone | Server/database.js:208-216 | after a phone change the client is found by the new phone within its owner and no longer by the old one |
| Clients.GetClientIdByPhone | Server/database.js:253-260 | returns exactly the rows with that phone and that owner, each as many times as the table holds it; a NULL phone or owner (an absent query parameter) matches no row |
| Clients.LookupScopedToOwner | Server/database.js:255-258 | clients of other owners never appear in a lookup, whatever their phone |
| Schedules.CreateDailySchedule | Server/database.js:137-152 | appends exactly one row carrying the six given values under insertId, keeps every earlier row, and keeps ids distinct and fresh |
| Schedules.ReadWeeklySchedule | Server/database.js:155-161 | returns exactly the rows whose workweek_id equals the argument, each as many times as the table holds it; a NULL workweek_id never matches |
| Schedules.ReadAfterCreate | Server/database.js:145-160 | after an insert, the week the row is tagged with reads as before plus the new row at the end, and every other week reads as before |
| Schedules.UpdateDailySchedule | Server/database.js:172-191 | the row with the id gets all four of start_time, end_time, is_workDay and time_slot_duration, NULL included, and keeps id, day_of_week and workweek_id; a NULL id matches nothing; other rows are untouched; affectedRows is 0 exactly when no row has the id and at most 1 when ids are distinct |
| Schedules.UpdateDailyScheduleLastWins | Server/database.js:179-189 | two overwrites of one row leave exactly what the second wrote |
| Schedules.UpdateKeepsWeekSizes | Server/database.js:179-189 | an overwrite never moves a row between weeks, so every week keeps its size |
| Schedules.UpdateLeavesOtherWeeks | Server/database.js:179-189 | a week holding no row with the updated id reads exactly as before |
| Businesses.UpdateBusiness | Server/database.js:435-446 | every business of the owner gets exactly the three given values, NULL included; other owners' rows are untouched |
| Businesses.UpdateBusinessForgetsPrevious | Server/database.js:436-444 | the table after an overwrite does not depend on the details the owner's rows held before |
| Handlers.WorkweekIdOf | Server/app.js:392 | the bound workweek_id is the number under the first `workweek_id` key, NULL when that value is not a number or no entry has the key |
| Handlers.InsertEach | Server/app.js:404-417 | one resultArr slot per value, empty exactly for numbers and `null`; one new row per other value, in order, with consecutive ids, the value's five properties and the shared workweek_id; earlier rows kept and ids stay distinct |
| Handlers.DaysAndNumbersPartition | Server/app.js:406 | the inserted days, the skipped numbers and the `null` values together account for every value; there is no `null` value exactly when their count is zero |
| Handlers.CreateSevenDailySchedules | Server/app.js:401-427 | rows added equal the number of values minus the numeric and `null` ones, all tagged with the object's workweek_id; "Server error" exactly when some value is `null`; success exactly when the object has an entry and no `null` value; "WorkWeek creation failed" exactly when it is empty |
| Handlers.NullDayFailsAfterInserting | Server/app.js:403-427 | a request with the id, a `null` day and one day object answers "Server error" although the day object's row was inserted |
| Handlers.SevenDaysReadBack | Server/app.js:401-417 | if the week had no rows before, reading it back returns exactly the new rows, in order |
| Handlers.SevenDaysMakeSevenRows | Server/app.js:401-417 | seven day objects plus the numeric id, with no `null` value, give a fresh week of exactly seven rows |
| Handlers.SuccessWithoutRows | Server/app.js:419-420 | an object holding only the numeric id reports success although no row is created |
| Handlers.ApplyChange | Server/app.js:532-540 | one callback overwrites the row whose id equals the element's id with start_time, endTime, isWorkDay and timeSlotDuration, keeps its id, day and week, and leaves every other row as it was |
| Handlers.ApplyAll | Server/app.js:531-542 | each row ends up overwritten by the last element of changedArr whose id names it, or unchanged if none does |
| Handlers.UpdateChangedDailySchedules | Server/app.js:531-551 | the table keeps its size, every row keeps its id, day and week, each row named by a non-`null` element gets the last such element's values, rows named by none are untouched; the reply is success exactly when no element is `null` and "Server error" otherwise |
| Handlers.NullChangeFailsAfterUpdating | Server/app.js:531-551 | an array holding `null` and then a changed day answers "Server error" although the changed day's row was overwritten |
| Handlers.OneChangedDay | Server/app.js:532-539 | a single changed day overwrites exactly the row with its id and leaves all others |
| Handlers.RowShapedChangeClearsColumns | Server/app.js:533-539 | an element carrying the row-style keys end_time, is_workDay and time_slot_duration sets those three columns to NULL and takes start_time |
| Handlers.ShiftDates | Server/app.js:842-845 | the shift keeps count and order and changes only the date of each record, to addDayToDate of the old date |
| Handlers.FutureAppointments | Server/app.js:838-851 | the k-th record of the reply is the k-th row of the future read with its date replaced by addDayToDate of that row's own date; every one of the owner's rows dated today or later appears in the reply so shifted |
| Handlers.CheckOverlap | Server/app.js:968-979 | "Not overlapping" exactly when checkOverlaps returned no row |
| Handlers.CheckOverlapMeansShared | Server/app.js:968-979 | when the owner's appointments on that date have start <= end, "Overlapping" exactly when an appointment of that owner and date satisfies start < pEnd and pStart < end |
| Handlers.DegenerateProposalClashes | Server/app.js:951-979 | an empty or reversed proposal reaches the query and is reported "Overlapping" against a well-formed appointment that straddles it |
| Handlers.BookingScenario | Server/app.js:968-979 | with 09:00-10:00 booked: 08:30-09:30 and 09:15-09:45 clash, 10:00-11:00 does not, and the same times on another date do not |

## Left out

- The connection pool and `dotenv` configuration are external I/O. `pool.query` is replaced by the table semantics above.
- SQL text, parsing and the casting of `HH:MM`/`YYYY-MM-DD` strings are not modelled. Times and dates are naturals from the start.
- Statement failures are not modelled, and neither are the `catch` branches they lead to. The abstract table never fails. The only "Server error" modelled is the one a `null` request value causes.
- Express routing, `express-validator` checks, CORS, the `wait()` delays and HTTP status plumbing are framework glue. A reply is `Success` (201) or `Failure` (500) with its message.
- `Promise.all` runs its callbacks concurrently. The model applies them one after another in array order. So auto-increment ids follow array order, and of two elements naming one row the later wins. The concurrency and the missing rollback are not captured.
- `addDayToDate` from `Server/helperFunctions.js` is a function parameter. It depends on JavaScript `Date` parsing and the host time zone.
- `CURDATE()` is the parameter `today`.
- `affectedRows` is taken as the number of rows the WHERE matched, which is what the driver's default found-rows mode reports. The checks `affectedRows === 1` in the single-update handlers are outside the modelled handlers.
- `Handlers.WorkweekIdOf` takes the id only when the `workweek_id` entry is a number. A non-number `workweek_id`, such as a numeric string that MySQL would cast, is bound as NULL.
- String comparisons `owner_id = ?` and `phone = ?` are exact equality of character sequences. MySQL compares strings by the column's collation, and its default collations ignore case and trailing spaces. So `Appointments.OtherOwnersAndDatesIgnored`, `Clients.LookupScopedToOwner` and the owner scoping of every read hold as stated only under a binary collation. Owner ids are mixed-case uids.
- A `SELECT` without `ORDER BY` returns its rows in no guaranteed order. The model returns them in table order. Every equality between selects, such as `Schedules.ReadAfterCreate`, `Handlers.SevenDaysReadBack` and `Appointments.CheckOverlapsIsIntervalOverlap`, holds for the set and count of rows returned; the order it states is the model's choice, not a promise of MySQL.
- Some columns are not nullable in the model: appointment start, end, date and note; service description, duration, price and img_url; client email. The create handlers pass request fields they do not validate (`Server/app.js` 180-187, 581 and 762-770, with the email check at 564 commented out), so NULL reaches those columns unless the schema forbids it. The inserts that would store it are left out, and the updates never store NULL, because their CASE keeps the old value.
- Ids are unbounded naturals and prices are integers. Column widths and DECIMAL rounding are not modelled.
- `Name` and `workWeek_id` in the SQL are the `name` and `workweek_id` columns, because MySQL column names are case-insensitive.
- These statements have no rules beyond a single row insert, delete or key lookup, so they are left out:
  - `createUser`, `changeUserTempId`;
  - `createService`, `readAllServices`, `readSingleService`, `readOwenerIdFromServiceId`, `deleteService`;
  - `createWorkWeek`, `readWorkWeedId`;
  - `createClient`, `deleteClient`, `getAllOwnerClients`, `getClient`, `getClientExistsByPhone`;
  - `createAppointment`, `readAppointment`, `readAllOwnerAppointments`, `readAllClientAppointments`, `deleteAppointment`;
  - `createBusiness`, `readBusiness`.
  
  The round trip from creating an appointment to reading it by id goes with them.
- The other request handlers are single forwarding calls and are not modelled.

=== FILE: appointments.dfy ===
/** The `appointments` table: the overlap query, the per-day and future reads, and the
    partial (NULL-preserving) reschedule update. */
module Appointments {
  import opened Columns
  import Rows

  datatype Appointment = Appointment(
    id: nat,
    ownerId: OwnerId,
    clientId: nat,
    start: Time,
    end: Time,
    date: Date,
    serviceId: nat,
    note: string)

  /** An appointment that does not end before it starts. */
  predicate WellFormed(a: Appointment) {
    a.start <= a.end
  }

  predicate AllWellFormed(rows: seq<Appointment>) {
    forall i :: 0 <= i < |rows| ==> WellFormed(rows[i])
  }

  /** Every appointment of the owner on the date is well-formed; other rows may be anything. */
  predicate DayWellFormed(rows: seq<Appointment>, owner: OwnerId, date: Date) {
    forall i :: 0 <= i < |rows| && rows[i].ownerId == owner && rows[i].date == date ==> WellFormed(rows[i])
  }

  /** The symmetric clash test `s1 < e2 && s2 < e1`. For non-empty intervals `[s1, e1)`
      and `[s2, e2)` it says they share an instant; for an empty or reversed one it need
      not (see `DegenerateProposalClashes`). */
  predicate IntervalsOverlap(s1: Time, e1: Time, s2: Time, e2: Time) {
    s1 < e2 && s2 < e1
  }

  /** The primary key. */
  function IdOf(a: Appointment): int {
    a.id
  }

  // ---- readAllOwnerAppointmentsInDate --------------------------------------------------

  /** `owner_id = ? AND date = ?` */
  function OnOwnerDate(owner: OwnerId, date: Date): Appointment -> bool {
    (a: Appointment) => a.ownerId == owner && a.date == date
  }

  /** `SELECT * FROM appointments WHERE owner_id = ? AND date = ?` */
  function ReadAllOwnerAppointmentsInDate(rows: seq<Appointment>, owner: OwnerId, date: Date): (r: seq<Appointment>)
    ensures forall k :: 0 <= k < |r| ==> r[k] in rows && r[k].ownerId == owner && r[k].date == date
    ensures forall i :: 0 <= i < |rows| && rows[i].ownerId == owner && rows[i].date == date ==> rows[i] in r
    ensures forall x :: Rows.Count(r, x) == if x.ownerId == owner && x.date == date then Rows.Count(rows, x) else 0
  {
    var r := Rows.Select(rows, OnOwnerDate(owner, date));
    assert forall x :: Rows.Count(r, x) == if x.ownerId == owner && x.date == date then Rows.Count(rows, x) else 0 by {
      forall x {
        Rows.SelectCount(rows, OnOwnerDate(owner, date), x);
      }
    }
    r
  }

  // ---- readAllOwnerFutureAppointments --------------------------------------------------

  /** `owner_id = ? AND date >= CURDATE()`, with the server's current date as `today`. */
  function FromToday(owner: OwnerId, today: Date): Appointment -> bool {
    (a: Appointment) => a.ownerId == owner && a.date >= today
  }

  /** `SELECT * FROM appointments WHERE owner_id = ? AND date >= CURDATE()` */
  function ReadAllOwnerFutureAppointments(rows: seq<Appointment>, owner: OwnerId, today: Date): (r: seq<Appointment>)
    ensures forall k :: 0 <= k < |r| ==> r[k] in rows && r[k].ownerId == owner && r[k].date >= today
    ensures forall i :: 0 <= i < |rows| && rows[i].ownerId == owner && rows[i].date >= today ==> rows[i] in r
    ensures forall x :: Rows.Count(r, x) == if x.ownerId == owner && x.date >= today then Rows.Count(rows, x) else 0
  {
    var r := Rows.Select(rows, FromToday(owner, today));
    assert forall x :: Rows.Count(r, x) == if x.ownerId == owner && x.date >= today then Rows.Count(rows, x) else 0 by {
      forall x {
        Rows.SelectCount(rows, FromToday(owner, today), x);
      }
    }
    r
  }

  // ---- checkOverlaps -------------------------------------------------------------------

  /** `start < ? AND end > ? AND date = ?`, the first and the second disjunct. */
  predicate StartsBeforeEndsAfter(a: Appointment, startBound: Time, endBound: Time, date: Date) {
    a.start < startBound && a.end > endBound && a.date == date
  }

  /** `start > ? AND end < ? AND date = ?`, the third disjunct. */
  predicate StartsAfterEndsBefore(a: Appointment, startBound: Time, endBound: Time, date: Date) {
    a.start > startBound && a.end < endBound && a.date == date
  }

  /** The WHERE clause of checkOverlaps with its parameters bound in the order the query
      lists them: (end, start, date) twice, then (start, end, date). */
  function OverlapWhere(owner: OwnerId, date: Date, start: Time, end: Time): Appointment -> bool {
    (a: Appointment) =>
      a.ownerId == owner
      && (StartsBeforeEndsAfter(a, end, start, date)
          || StartsBeforeEndsAfter(a, end, start, date)
          || StartsAfterEndsBefore(a, start, end, date))
  }

  /** An appointment of the owner on the date that straddles the proposal strictly or
      sits strictly inside it. */
  predicate Clashes(a: Appointment, owner: OwnerId, date: Date, start: Time, end: Time) {
    a.ownerId == owner && a.date == date && ((a.start < end && a.end > start) || (a.start > start && a.end < end))
  }

  /** The rows checkOverlaps returns for a proposed appointment `[start, end)`: rows of
      that owner and date that either straddle the proposal strictly or sit strictly
      inside it. */
  function CheckOverlaps(rows: seq<Appointment>, owner: OwnerId, date: Date, start: Time, end: Time): (r: seq<Appointment>)
    ensures forall k :: 0 <= k < |r| ==> r[k] in rows && Clashes(r[k], owner, date, start, end)
    ensures forall i :: 0 <= i < |rows| && Clashes(rows[i], owner, date, start, end) ==> rows[i] in r
    ensures forall x :: Rows.Count(r, x) == if Clashes(x, owner, date, start, end) then Rows.Count(rows, x) else 0
  {
    var r := Rows.Select(rows, OverlapWhere(owner, date, start, end));
    assert forall x :: Rows.Count(r, x) == if Clashes(x, owner, date, start, end) then Rows.Count(rows, x) else 0 by {
      forall x {
        Rows.SelectCount(rows, OverlapWhere(owner, date, start, end), x);
      }
    }
    r
  }

  /** The interval part of the query once owner and date are fixed. */
  function ClashesWith(start: Time, end: Time): Appointment -> bool {
    (a: Appointment) => (a.start < end && a.end > start) || (a.start > start && a.end < end)
  }

  /** The symmetric test the query is meant to implement, per owner and date. */
  function SharesInstant(owner: OwnerId, date: Date, start: Time, end: Time): Appointment -> bool {
    (a: Appointment) => a.ownerId == owner && a.date == date && IntervalsOverlap(a.start, a.end, start, end)
  }

  /** When the owner's appointments on the date are well-formed the three-clause query is
      exactly the symmetric overlap test, returned in table order: the containment clause
      adds nothing. */
  lemma CheckOverlapsIsIntervalOverlap(rows: seq<Appointment>, owner: OwnerId, date: Date, start: Time, end: Time)
    requires DayWellFormed(rows, owner, date)
    ensures CheckOverlaps(rows, owner, date, start, end) == Rows.Select(rows, SharesInstant(owner, date, start, end))
  {
    Rows.SelectSameFilter(rows, OverlapWhere(owner, date, start, end), SharesInstant(owner, date, start, end));
  }

  /** The query is the owner's appointments on that date, filtered by the interval test:
      nothing from another owner or date is ever compared. */
  lemma CheckOverlapsWithinDay(rows: seq<Appointment>, owner: OwnerId, date: Date, start: Time, end: Time)
    ensures CheckOverlaps(rows, owner, date, start, end)
         == Rows.Select(ReadAllOwnerAppointmentsInDate(rows, owner, date), ClashesWith(start, end))
  {
    Rows.SelectSelect(rows, OnOwnerDate(owner, date), ClashesWith(start, end), OverlapWhere(owner, date, start, end));
  }

  /** Appointments of other owners or other dates never change the answer, wherever they
      sit in the table and whatever their times. */
  lemma OtherOwnersAndDatesIgnored(before: seq<Appointment>, others: seq<Appointment>, after: seq<Appointment>,
                                   owner: OwnerId, date: Date, start: Time, end: Time)
    requires forall i :: 0 <= i < |others| ==> others[i].ownerId != owner || others[i].date != date
    ensures CheckOverlaps(before + others + after, owner, date, start, end)
         == CheckOverlaps(before + after, owner, date, start, end)
  {
    var p := OverlapWhere(owner, date, start, end);
    forall i | 0 <= i < |others|
      ensures !p(others[i])
    {
    }
    Rows.SelectNone(others, p);
    calc {
      Rows.Select(before + others + after, p);
      { Rows.SelectAppend(before + others, after, p); }
      Rows.Select(before + others, p) + Rows.Select(after, p);
      { Rows.SelectAppend(before, others, p); }
      Rows.Select(before, p) + Rows.Select(others, p) + Rows.Select(after, p);
      { assert Rows.Select(before, p) + [] == Rows.Select(before, p); }
      Rows.Select(before, p) + Rows.Select(after, p);
      { Rows.SelectAppend(before, after, p); }
      Rows.Select(before + after, p);
    }
  }

  /** Touching is not overlapping: a well-formed appointment that ends where the proposal
      starts, or starts where it ends, is never returned. */
  lemma AdjacentNotReturned(rows: seq<Appointment>, owner: OwnerId, date: Date, start: Time, end: Time)
    ensures forall i :: 0 <= i < |rows| && WellFormed(rows[i]) && (rows[i].end == start || rows[i].start == end)
                        ==> rows[i] !in CheckOverlaps(rows, owner, date, start, end)
  {
  }

  /** Without well-formedness the containment clause is not redundant: a stored appointment
      whose end precedes its start is reported although it shares no instant with the
      proposal. */
  lemma ContainmentCatchesReversedRow()
    ensures var a := Appointment(1, "o", 1, 600, 540, 10, 1, "");
            && !IntervalsOverlap(a.start, a.end, 540, 660)
            && CheckOverlaps([a], "o", 10, 540, 660) == [a]
  {
    var a := Appointment(1, "o", 1, 600, 540, 10, 1, "");
    assert OverlapWhere("o", 10, 540, 660)(a);
  }

  // ---- updateAppointment ---------------------------------------------------------------

  /** `WHERE id = ?` */
  function HasId(id: nat): Appointment -> bool {
    (a: Appointment) => a.id == id
  }

  /** The SET list of updateAppointment: each of the five columns takes its parameter
      unless that is NULL. */
  function Reschedule(start: Option<Time>, end: Option<Time>, serviceId: Option<nat>,
                      note: Option<string>, date: Option<Date>): Appointment -> Appointment {
    (a: Appointment) => a.(start := Patch(start, a.start), end := Patch(end, a.end),
            serviceId := Patch(serviceId, a.serviceId), date := Patch(date, a.date),
            note := Patch(note, a.note))
  }

  /** updateAppointment(start, end, service_id, note, date, appointment_id). */
  function UpdateAppointment(rows: seq<Appointment>, start: Option<Time>, end: Option<Time>,
                             serviceId: Option<nat>, note: Option<string>, date: Option<Date>,
                             id: nat): (r: Rows.Written<Appointment>)
    ensures |r.rows| == |rows|
    ensures forall i :: 0 <= i < |rows| && rows[i].id != id ==> r.rows[i] == rows[i]
    ensures forall i :: 0 <= i < |rows| && rows[i].id == id ==>
      && r.rows[i].id == id
      && r.rows[i].ownerId == rows[i].ownerId
      && r.rows[i].clientId == rows[i].clientId
      && Patched(start, rows[i].start, r.rows[i].start)
      && Patched(end, rows[i].end, r.rows[i].end)
      && Patched(serviceId, rows[i].serviceId, r.rows[i].serviceId)
      && Patched(date, rows[i].date, r.rows[i].date)
      && Patched(note, rows[i].note, r.rows[i].note)
    ensures r.affectedRows == 0 <==> forall i :: 0 <= i < |rows| ==> rows[i].id != id
    ensures Rows.UniqueBy(rows, IdOf) ==> r.affectedRows <= 1
  {
    var r := Rows.Update(rows, HasId(id), Reschedule(start, end, serviceId, note, date));
    assert Rows.UniqueBy(rows, IdOf) ==> Rows.AtMostOne(rows, HasId(id));
    r
  }

  /** An update whose every field parameter is NULL leaves the table as it was. */
  lemma UpdateAppointmentAllNullKeepsTable(rows: seq<Appointment>, id: nat)
    ensures UpdateAppointment(rows, None, None, None, None, None, id).rows == rows
  {
    var r := UpdateAppointment(rows, None, None, None, None, None, id).rows;
    forall i | 0 <= i < |rows|
      ensures r[i] == rows[i]
    {
    }
  }

  /** Two reschedules of the same appointment equal one whose parameters take the later
      non-NULL value of each field; in particular repeating an update changes nothing. */
  lemma UpdateAppointmentTwice(rows: seq<Appointment>, id: nat,
                               s1: Option<Time>, e1: Option<Time>, v1: Option<nat>, n1: Option<string>, d1: Option<Date>,
                               s2: Option<Time>, e2: Option<Time>, v2: Option<nat>, n2: Option<string>, d2: Option<Date>)
    ensures UpdateAppointment(UpdateAppointment(rows, s1, e1, v1, n1, d1, id).rows, s2, e2, v2, n2, d2, id).rows
         == UpdateAppointment(rows, Later(s2, s1), Later(e2, e1), Later(v2, v1), Later(n2, n1), Later(d2, d1), id).rows
  {
    var f := Reschedule(s1, e1, v1, n1, d1);
    var g := Reschedule(s2, e2, v2, n2, d2);
    var h := Reschedule(Later(s2, s1), Later(e2, e1), Later(v2, v1), Later(n2, n1), Later(d2, d1));
    forall i | 0 <= i < |rows| && HasId(id)(rows[i])
      ensures HasId(id)(f(rows[i])) && g(f(rows[i])) == h(rows[i])
    {
      var a := rows[i];
      PatchTwice(s1, s2, a.start);
      PatchTwice(e1, e2, a.end);
      PatchTwice(v1, v2, a.serviceId);
      PatchTwice(n1, n2, a.note);
      PatchTwice(d1, d2, a.date);
    }
    Rows.UpdateTwice(rows, HasId(id), f, g, h);
  }
}

=== FILE: businesses.dfy ===
/** The `business` table and its full-overwrite update keyed by owner. */
module Businesses {
  import opened Columns
  import Rows

  /** A business row; the three detail columns are nullable because the update stores
      whatever it is handed. */
  datatype Business = Business(
    ownerId: OwnerId,
    name: Option<string>,
    address: Option<string>,
    phone: Option<string>)

  /** `WHERE owner_id = ?` */
  function OwnedBy(owner: OwnerId): Business -> bool {
    (b: Business) => b.ownerId == owner
  }

  /** The SET list of updateBusiness: three unconditional assignments. */
  function Replace(name: Option<string>, address: Option<string>, phone: Option<string>): Business -> Business {
    (b: Business) => b.(name := name, address := address, phone := phone)
  }

  /** updateBusiness(name, address, phone, owner_id): every business of the owner gets
      exactly the three values, NULL included; other owners' rows are untouched. */
  function UpdateBusiness(rows: seq<Business>, name: Option<string>, address: Option<string>, phone: Option<string>,
                          owner: OwnerId): (r: Rows.Written<Business>)
    ensures |r.rows| == |rows|
    ensures forall i :: 0 <= i < |rows| && rows[i].ownerId != owner ==> r.rows[i] == rows[i]
    ensures forall i :: 0 <= i < |rows| && rows[i].ownerId == owner ==>
      r.rows[i].ownerId == owner && r.rows[i].name == name && r.rows[i].address == address && r.rows[i].phone == phone
    ensures r.affectedRows == 0 <==> forall i :: 0 <= i < |rows| ==> rows[i].ownerId != owner
  {
    Rows.Update(rows, OwnedBy(owner), Replace(name, address, phone))
  }

  /** The result of an overwrite does not depend on what the rows held before: two
      tables that differ only in this owner's details end up equal. */
  lemma UpdateBusinessForgetsPrevious(a: seq<Business>, b: seq<Business>, name: Option<string>,
                                      address: Option<string>, phone: Option<string>, owner: OwnerId)
    requires |a| == |b|
    requires forall i :: 0 <= i < |a| ==> a[i].ownerId == b[i].ownerId
    requires forall i :: 0 <= i < |a| && a[i].ownerId != owner ==> a[i] == b[i]
    ensures UpdateBusiness(a, name, address, phone, owner).rows == UpdateBusiness(b, name, address, phone, owner).rows
  {
    var ra := UpdateBusiness(a, name, address, phone, owner).rows;
    var rb := UpdateBusiness(b, name, address, phone, owner).rows;
    forall i | 0 <= i < |a|
      ensures ra[i] == rb[i]
    {
    }
  }
}

=== FILE: clients.dfy ===
/** The `clients` table: lookup by phone within an owner and the NULL-preserving update. */
module Clients {
  import opened Columns
  import Rows

  datatype Client = Client(
    id: nat,
    name: string,
    phone: string,
    email: string,
    ownerId: OwnerId)

  // ---- getClientIdByPhone --------------------------------------------------------------

  /** `phone = ? && owner_id = ?`. Either parameter may be NULL (an absent query
      parameter), and a comparison with NULL matches no row. */
  function PhoneOfOwner(phone: Option<string>, owner: Option<OwnerId>): Client -> bool {
    (c: Client) => EqualsParam(c.phone, phone) && EqualsParam(c.ownerId, owner)
  }

  /** `SELECT * FROM clients WHERE phone = ? && owner_id = ?` */
  function GetClientIdByPhone(rows: seq<Client>, phone: Option<string>, owner: Option<OwnerId>): (r: seq<Client>)
    ensures phone.None? || owner.None? ==> r == []
    ensures forall k :: 0 <= k < |r| ==> r[k] in rows && phone == Some(r[k].phone) && owner == Some(r[k].ownerId)
    ensures forall i :: 0 <= i < |rows| && phone == Some(rows[i].phone) && owner == Some(rows[i].ownerId) ==> rows[i] in r
    ensures forall x :: Rows.Count(r, x) == if phone == Some(x.phone) && owner == Some(x.ownerId) then Rows.Count(rows, x) else 0
  {
    var p := PhoneOfOwner(phone, owner);
    assert phone.None? || owner.None? ==> Rows.Select(rows, p) == [] by {
      if phone.None? || owner.None? {
        Rows.SelectNone(rows, p);
      }
    }
    assert forall x :: Rows.Count(Rows.Select(rows, p), x)
                       == if phone == Some(x.phone) && owner == Some(x.ownerId) then Rows.Count(rows, x) else 0 by {
      forall x {
        Rows.SelectCount(rows, p, x);
      }
    }
    Rows.Select(rows, p)
  }

  /** The same phone number registered with another owner is never found: each owner's
      clients are looked up only among that owner's rows. */
  lemma LookupScopedToOwner(mine: seq<Client>, theirs: seq<Client>, phone: Option<string>, owner: Option<OwnerId>)
    requires forall i :: 0 <= i < |theirs| ==> owner != Some(theirs[i].ownerId)
    ensures GetClientIdByPhone(mine + theirs, phone, owner) == GetClientIdByPhone(mine, phone, owner)
    ensures GetClientIdByPhone(theirs + mine, phone, owner) == GetClientIdByPhone(mine, phone, owner)
  {
    var p := PhoneOfOwner(phone, owner);
    Rows.SelectNone(theirs, p);
    Rows.SelectAppend(mine, theirs, p);
    Rows.SelectAppend(theirs, mine, p);
    assert Rows.Select(mine, p) + [] == Rows.Select(mine, p);
    assert [] + Rows.Select(mine, p) == Rows.Select(mine, p);
  }

  // ---- updateClient --------------------------------------------------------------------

  /** `WHERE id = ?` */
  function HasId(id: nat): Client -> bool {
    (c: Client) => c.id == id
  }

  /** The SET list of updateClient (`Name` is the `name` column: MySQL column names are
      case-insensitive). */
  function Amend(name: Option<string>, phone: Option<string>, email: Option<string>): Client -> Client {
    (c: Client) => c.(name := Patch(name, c.name), phone := Patch(phone, c.phone), email := Patch(email, c.email))
  }

  /** updateClient(name, phone, email, client_id). */
  function UpdateClient(rows: seq<Client>, name: Option<string>, phone: Option<string>, email: Option<string>,
                        clientId: nat): (r: Rows.Written<Client>)
    ensures |r.rows| == |rows|
    ensures forall i :: 0 <= i < |rows| && rows[i].id != clientId ==> r.rows[i] == rows[i]
    ensures forall i :: 0 <= i < |rows| && rows[i].id == clientId ==>
      && r.rows[i].id == clientId
      && r.rows[i].ownerId == rows[i].ownerId
      && Patched(name, rows[i].name, r.rows[i].name)
      && Patched(phone, rows[i].phone, r.rows[i].phone)
      && Patched(email, rows[i].email, r.rows[i].email)
    ensures r.affectedRows == 0 <==> forall i :: 0 <= i < |rows| ==> rows[i].id != clientId
  {
    Rows.Update(rows, HasId(clientId), Amend(name, phone, email))
  }

  /** After changing a client's phone, a lookup by the new phone within that owner finds
      the client, and a lookup by the old phone no longer does. */
  lemma FoundByNewPhone(rows: seq<Client>, clientId: nat, phone: string, i: nat)
    requires i < |rows| && rows[i].id == clientId
    ensures var after := UpdateClient(rows, None, Some(phone), None, clientId).rows;
            && after[i] in GetClientIdByPhone(after, Some(phone), Some(rows[i].ownerId))
            && (rows[i].phone != phone ==> after[i] !in GetClientIdByPhone(after, Some(rows[i].phone), Some(rows[i].ownerId)))
  {
  }
}

=== FILE: columns.dfy ===
/** Column value types of the booking database and the way statements treat SQL NULL. */
module Columns {

  /** A TIME column, as minutes since midnight. */
  type Time = nat

  /** A DATE column, as a day number; only equality and order are used. */
  type Date = nat

  /** `users.id`: the identity provider's uid string that scopes every owner's data. */
  type OwnerId = string

  /** A nullable column value or a bound statement parameter. JavaScript `null` and
      `undefined` are both bound as SQL NULL. */
  datatype Option<+T> = None | Some(value: T)

  /** The stored value after `col = CASE WHEN ? IS NOT NULL THEN ? ELSE col END`:
      the parameter when it is given, the previous value otherwise. */
  predicate Patched<T(==)>(param: Option<T>, before: T, after: T) {
    if param.Some? then after == param.value else after == before
  }

  /** Evaluates `CASE WHEN ? IS NOT NULL THEN ? ELSE col END`. */
  function Patch<T>(param: Option<T>, stored: T): T {
    match param
    case Some(v) => v
    case None => stored
  }

  /** The parameter given later wins; the earlier one fills in when the later one is NULL. */
  function Later<T>(later: Option<T>, earlier: Option<T>): Option<T> {
    if later.Some? then later else earlier
  }

  /** `col = ?`: a comparison with a NULL parameter is never true. */
  predicate EqualsParam<T(==)>(col: T, param: Option<T>) {
    param == Some(col)
  }

  /** Two successive CASE updates of one column equal a single one with the later
      non-NULL parameter. */
  lemma PatchTwice<T>(earlier: Option<T>, later: Option<T>, stored: T)
    ensures Patch(later, Patch(earlier, stored)) == Patch(Later(later, earlier), stored)
  {
  }
}

=== FILE: handlers.dfy ===
/** The request handlers that do more than forward one call: the seven-day composition,
    the changed-days fan-out, the date remap of future appointments and the overlap
    verdict. Each `Promise.all` fan-out is applied sequentially, left to right. */
module Handlers {
  import opened Columns
  import Rows
  import Appointments
  import Schedules

  // ---- POST /dailySchedule/create-7-daily-schedules ------------------------------------

  /** The properties the handler reads from one value of `weekScheduleObj`. An absent
      property is `undefined` and binds as NULL, so any value other than a number or
      `null` (a string, say) is represented by the ones it happens to have. */
  datatype DayDescriptor = DayDescriptor(
    name: Option<string>,
    startTime: Option<Time>,
    endTime: Option<Time>,
    isWorkDay: Option<bool>,
    timeSlotDuration: Option<nat>)

  /** One value of `weekScheduleObj`: a number (`typeof weekDay === 'number'`, skipped),
      JSON `null` (its `typeof` is `'object'`, so it is not skipped and reading `.name`
      from it throws), or any other value. */
  datatype WeekValue = Number(n: int) | Null | NonNumber(day: DayDescriptor)

  /** One own property of `weekScheduleObj`. The object is the sequence of its entries in
      the order `Object.values` enumerates them. */
  datatype Entry = Entry(key: string, value: WeekValue)

  /** `Object.values(weekScheduleObj)` */
  function ValuesOf(obj: seq<Entry>): (vs: seq<WeekValue>)
    ensures |vs| == |obj|
    ensures forall j :: 0 <= j < |obj| ==> vs[j] == obj[j].value
  {
    seq(|obj|, (j: int) requires 0 <= j < |obj| => obj[j].value)
  }

  /** `j` is the entry a property read of `workweek_id` finds: the first one with that key. */
  predicate FirstWorkweekEntry(obj: seq<Entry>, j: int) {
    && 0 <= j < |obj|
    && obj[j].key == "workweek_id"
    && forall j' :: 0 <= j' < j ==> obj[j'].key != "workweek_id"
  }

  /** `const { workweek_id } = weekScheduleObj`, as the value bound for the `workweek_id`
      column: the number stored under that key, NULL when the key is absent. */
  function WorkweekIdOf(obj: seq<Entry>): (r: Option<int>)
    ensures (forall j :: 0 <= j < |obj| ==> obj[j].key != "workweek_id") ==> r.None?
    ensures forall j :: FirstWorkweekEntry(obj, j) ==>
      r == (match obj[j].value case Number(n) => Some(n) case _ => None)
    decreases |obj|
  {
    if obj == [] then None
    else if obj[0].key == "workweek_id" then
      match obj[0].value
      case Number(n) => Some(n)
      case _ => None
    else WorkweekIdOf(obj[1..])
  }

  /** The values that are neither numbers nor `null`, in order: the days the handler inserts. */
  function Days(vs: seq<WeekValue>): seq<DayDescriptor>
    decreases |vs|
  {
    if vs == [] then []
    else Days(vs[..|vs| - 1]) + (match vs[|vs| - 1] case NonNumber(d) => [d] case _ => [])
  }

  /** How many values are numbers (the `workweek_id` entry in a well-formed request). */
  function NumberCount(vs: seq<WeekValue>): nat
    decreases |vs|
  {
    if vs == [] then 0
    else NumberCount(vs[..|vs| - 1]) + (if vs[|vs| - 1].Number? then 1 else 0)
  }

  /** How many values are `null`. */
  function NullCount(vs: seq<WeekValue>): nat
    decreases |vs|
  {
    if vs == [] then 0
    else NullCount(vs[..|vs| - 1]) + (if vs[|vs| - 1].Null? then 1 else 0)
  }

  /** Some value is `null`: its callback throws, so `Promise.all` rejects. */
  predicate HasNull(vs: seq<WeekValue>) {
    exists j :: 0 <= j < |vs| && vs[j].Null?
  }

  lemma {:induction false} DaysAndNumbersPartition(vs: seq<WeekValue>)
    ensures |Days(vs)| + NumberCount(vs) + NullCount(vs) == |vs|
    ensures NullCount(vs) == 0 <==> !HasNull(vs)
    decreases |vs|
  {
    if vs != [] {
      var init := vs[..|vs| - 1];
      DaysAndNumbersPartition(init);
      assert HasNull(vs) <==> HasNull(init) || vs[|vs| - 1].Null? by {
        if HasNull(vs) && !vs[|vs| - 1].Null? {
          var j :| 0 <= j < |vs| && vs[j].Null?;
          assert init[j].Null?;
        }
        if HasNull(init) {
          var j :| 0 <= j < |init| && init[j].Null?;
          assert vs[j].Null?;
        }
      }
    }
  }

  /** The table after the fan-out and `resultArr`: one slot per value, `undefined` for a
      number, none for a `null` whose callback threw, and the new row's `insertId`
      otherwise. Every callback starts its insert before any of them is awaited, so a
      `null` value does not stop the others. */
  datatype Batch = Batch(table: Schedules.ScheduleTable, resultArr: seq<Option<nat>>)

  /** `weekDaysArray.map(...)` with each callback's createDailySchedule applied in turn. */
  function InsertEach(t: Schedules.ScheduleTable, vs: seq<WeekValue>, workweekId: Option<int>): (r: Batch)
    ensures |r.resultArr| == |vs|
    ensures forall j :: 0 <= j < |vs| ==> (r.resultArr[j].None? <==> !vs[j].NonNumber?)
    ensures |r.table.rows| == |t.rows| + |Days(vs)|
    ensures r.table.rows[..|t.rows|] == t.rows
    ensures r.table.nextId == t.nextId + |Days(vs)|
    ensures forall k :: 0 <= k < |Days(vs)| ==>
      var d := Days(vs)[k];
      Schedules.Holds(r.table.rows[|t.rows| + k], t.nextId + k, d.name, d.startTime, d.endTime,
                      workweekId, d.isWorkDay, d.timeSlotDuration)
    ensures Schedules.Valid(t) ==> Schedules.Valid(r.table)
    decreases |vs|
  {
    if vs == [] then Batch(t, [])
    else
      var prev := InsertEach(t, vs[..|vs| - 1], workweekId);
      match vs[|vs| - 1]
      case NonNumber(d) =>
        var ins := Schedules.CreateDailySchedule(prev.table, d.name, d.startTime, d.endTime,
                                                 workweekId, d.isWorkDay, d.timeSlotDuration);
        Batch(ins.table, prev.resultArr + [Some(ins.insertId)])
      case _ => Batch(prev.table, prev.resultArr + [None])
  }

  /** The reply of a handler: an HTTP 201 or 500 with its message. */
  datatype Reply = Success(message: string) | Failure(message: string)

  datatype SevenDays = SevenDays(table: Schedules.ScheduleTable, resultArr: seq<Option<nat>>, reply: Reply)

  /** The create-7-daily-schedules handler body. A `null` value sends it to its `catch`
      branch ("Server error") after the other values' rows have been inserted. */
  function CreateSevenDailySchedules(t: Schedules.ScheduleTable, obj: seq<Entry>): (r: SevenDays)
    ensures |r.resultArr| == |obj|
    ensures |t.rows| <= |r.table.rows| == |t.rows| + |obj| - NumberCount(ValuesOf(obj)) - NullCount(ValuesOf(obj))
    ensures r.table.rows[..|t.rows|] == t.rows
    ensures forall k :: |t.rows| <= k < |r.table.rows| ==> r.table.rows[k].workweekId == WorkweekIdOf(obj)
    ensures r.reply == Failure("Server error") <==> exists j :: 0 <= j < |obj| && obj[j].value.Null?
    ensures r.reply == Success("WorkWeek created successfully")
            <==> |obj| > 0 && forall j :: 0 <= j < |obj| ==> !obj[j].value.Null?
    ensures r.reply == Failure("WorkWeek creation failed") <==> |obj| == 0
  {
    var vs := ValuesOf(obj);
    var b := InsertEach(t, vs, WorkweekIdOf(obj));
    DaysAndNumbersPartition(vs);
    assert forall k :: |t.rows| <= k < |b.table.rows| ==> b.table.rows[k].workweekId == WorkweekIdOf(obj) by {
      forall k | |t.rows| <= k < |b.table.rows|
        ensures b.table.rows[k].workweekId == WorkweekIdOf(obj)
      {
        var d := Days(vs)[k - |t.rows|];
        assert Schedules.Holds(b.table.rows[|t.rows| + (k - |t.rows|)], t.nextId + (k - |t.rows|), d.name, d.startTime,
                               d.endTime, WorkweekIdOf(obj), d.isWorkDay, d.timeSlotDuration);
      }
    }
    assert HasNull(vs) <==> exists j :: 0 <= j < |obj| && obj[j].value.Null?;
    var reply := if HasNull(vs) then Failure("Server error")
                 else if |b.resultArr| > 0 then Success("WorkWeek created successfully")
                 else Failure("WorkWeek creation failed");
    SevenDays(b.table, b.resultArr, reply)
  }

  /** If the week had no rows before, reading it back after the composition returns
      exactly the rows just created, in order. */
  lemma SevenDaysReadBack(t: Schedules.ScheduleTable, obj: seq<Entry>, week: int)
    requires WorkweekIdOf(obj) == Some(week)
    requires forall i :: 0 <= i < |t.rows| ==> t.rows[i].workweekId != Some(week)
    ensures var r := CreateSevenDailySchedules(t, obj);
            Schedules.ReadWeeklySchedule(r.table.rows, week) == r.table.rows[|t.rows|..]
  {
    var r := CreateSevenDailySchedules(t, obj);
    var added := r.table.rows[|t.rows|..];
    assert r.table.rows == t.rows + added;
    var p := Schedules.InWeek(week);
    Rows.SelectAppend(t.rows, added, p);
    Rows.SelectNone(t.rows, p);
    forall k | 0 <= k < |added|
      ensures p(added[k])
    {
      assert added[k] == r.table.rows[|t.rows| + k];
    }
    Rows.SelectAll(added, p);
  }

  /** Seven day objects plus the numeric id give a fresh week of exactly seven rows. */
  lemma SevenDaysMakeSevenRows(t: Schedules.ScheduleTable, obj: seq<Entry>, week: int)
    requires WorkweekIdOf(obj) == Some(week)
    requires forall i :: 0 <= i < |t.rows| ==> t.rows[i].workweekId != Some(week)
    requires |obj| == 8 && NumberCount(ValuesOf(obj)) == 1 && NullCount(ValuesOf(obj)) == 0
    ensures |Schedules.ReadWeeklySchedule(CreateSevenDailySchedules(t, obj).table.rows, week)| == 7
  {
    SevenDaysReadBack(t, obj, week);
  }

  /** `resultArr.length` counts the `undefined` slot of the numeric id too, so success is
      reported for an object holding nothing but the id, although no row was created. */
  lemma SuccessWithoutRows(t: Schedules.ScheduleTable)
    ensures var r := CreateSevenDailySchedules(t, [Entry("workweek_id", Number(1))]);
            r.reply.Success? && r.table.rows == t.rows
  {
    var obj := [Entry("workweek_id", Number(1))];
    var vs := ValuesOf(obj);
    assert vs == [Number(1)];
    assert vs[..0] == [];
  }

  /** A `null` day answers "Server error", yet the day next to it has been inserted. */
  lemma NullDayFailsAfterInserting(t: Schedules.ScheduleTable, d: DayDescriptor)
    ensures var r := CreateSevenDailySchedules(t, [Entry("workweek_id", Number(3)), Entry("sunday", Null),
                                                   Entry("monday", NonNumber(d))]);
            && r.reply == Failure("Server error")
            && |r.table.rows| == |t.rows| + 1
            && r.table.rows[|t.rows|].workweekId == Some(3)
  {
    var obj := [Entry("workweek_id", Number(3)), Entry("sunday", Null), Entry("monday", NonNumber(d))];
    var vs := ValuesOf(obj);
    assert vs == [Number(3), Null, NonNumber(d)];
    var v1: seq<WeekValue> := [Number(3)];
    var v2: seq<WeekValue> := [Number(3), Null];
    assert v1[..0] == [] && v2[..1] == v1 && vs[..2] == v2;
    assert NumberCount(v1) == 1 && NullCount(v1) == 0;
    assert NumberCount(v2) == 1 && NullCount(v2) == 1;
    assert NumberCount(vs) == 1 && NullCount(vs) == 1;
    assert obj[1].value.Null?;
  }

  // ---- POST /dailySchedule/update-changed-daily-schedules ------------------------------

  /** The properties of one `changedArr` element that matter. The handler reads
      `start_time` but `endTime`, `isWorkDay` and `timeSlotDuration`; both spellings are
      kept so that the element can be shaped like a stored row or like a form. */
  datatype ChangedDay = ChangedDay(
    id: Option<nat>,
    start_time: Option<Time>,
    end_time: Option<Time>,
    is_workDay: Option<bool>,
    time_slot_duration: Option<nat>,
    startTime: Option<Time>,
    endTime: Option<Time>,
    isWorkDay: Option<bool>,
    timeSlotDuration: Option<nat>)

  /** One callback: updateDailySchedule(weekDay.start_time, weekDay.endTime,
      weekDay.isWorkDay, weekDay.timeSlotDuration, weekDay.id). */
  function ApplyChange(rows: seq<Schedules.DailySchedule>, c: ChangedDay): (r: seq<Schedules.DailySchedule>)
    ensures |r| == |rows|
    ensures forall i :: 0 <= i < |rows| ==>
      if c.id == Some(rows[i].id)
      then Schedules.Overwritten(rows[i], r[i], c.start_time, c.endTime, c.isWorkDay, c.timeSlotDuration)
      else r[i] == rows[i]
  {
    Schedules.UpdateDailySchedule(rows, c.start_time, c.endTime, c.isWorkDay, c.timeSlotDuration, c.id).rows
  }

  /** The last element of `changes` whose `id` names the row, if any. */
  function LastChangeFor(changes: seq<ChangedDay>, id: nat): Option<ChangedDay>
    decreases |changes|
  {
    if changes == [] then None
    else if changes[|changes| - 1].id == Some(id) then Some(changes[|changes| - 1])
    else LastChangeFor(changes[..|changes| - 1], id)
  }

  /** All callbacks, in array order. */
  function ApplyAll(rows: seq<Schedules.DailySchedule>, changes: seq<ChangedDay>): (r: seq<Schedules.DailySchedule>)
    ensures |r| == |rows|
    ensures forall i :: 0 <= i < |rows| ==>
      match LastChangeFor(changes, rows[i].id)
      case None => r[i] == rows[i]
      case Some(c) => Schedules.Overwritten(rows[i], r[i], c.start_time, c.endTime, c.isWorkDay, c.timeSlotDuration)
    decreases |changes|
  {
    if changes == [] then rows
    else ApplyChange(ApplyAll(rows, changes[..|changes| - 1]), changes[|changes| - 1])
  }

  datatype ChangedDays = ChangedDays(rows: seq<Schedules.DailySchedule>, reply: Reply)

  /** The elements of `changedArr` that are not JSON `null` (`None`), in order: a `null`
      element throws on `weekDay.start_time` before its update starts, and the others
      still run theirs. */
  function Present(changedArr: seq<Option<ChangedDay>>): (cs: seq<ChangedDay>)
    ensures |cs| <= |changedArr|
    ensures (forall j :: 0 <= j < |changedArr| ==> changedArr[j].Some?) ==> |cs| == |changedArr|
    decreases |changedArr|
  {
    if changedArr == [] then []
    else Present(changedArr[..|changedArr| - 1])
         + (match changedArr[|changedArr| - 1] case Some(c) => [c] case None => [])
  }

  /** The update-changed-daily-schedules handler body. `resultArr` is an array and so
      always truthy: once every update resolves the reply is success. A `null` element
      rejects `Promise.all` and the reply is "Server error", after the other updates. */
  function UpdateChangedDailySchedules(rows: seq<Schedules.DailySchedule>,
                                       changedArr: seq<Option<ChangedDay>>): (r: ChangedDays)
    ensures |r.rows| == |rows|
    ensures forall i :: 0 <= i < |rows| && LastChangeFor(Present(changedArr), rows[i].id).None? ==> r.rows[i] == rows[i]
    ensures forall i :: 0 <= i < |rows| && LastChangeFor(Present(changedArr), rows[i].id).Some? ==>
      var c := LastChangeFor(Present(changedArr), rows[i].id).value;
      Schedules.Overwritten(rows[i], r.rows[i], c.start_time, c.endTime, c.isWorkDay, c.timeSlotDuration)
    ensures forall i :: 0 <= i < |rows| ==>
      r.rows[i].id == rows[i].id && r.rows[i].dayOfWeek == rows[i].dayOfWeek && r.rows[i].workweekId == rows[i].workweekId
    ensures r.reply == Success("Daily schedule updated successfully") <==> forall j :: 0 <= j < |changedArr| ==> changedArr[j].Some?
    ensures r.reply == Failure("Server error") <==> exists j :: 0 <= j < |changedArr| && changedArr[j].None?
  {
    var reply := if exists j :: 0 <= j < |changedArr| && changedArr[j].None? then Failure("Server error")
                 else Success("Daily schedule updated successfully");
    ChangedDays(ApplyAll(rows, Present(changedArr)), reply)
  }

  /** A changed day targets exactly the row with its id: when one element names a row,
      that row gets the element's four values and every other row is kept. */
  lemma OneChangedDay(rows: seq<Schedules.DailySchedule>, c: ChangedDay)
    requires c.id.Some?
    ensures var r := UpdateChangedDailySchedules(rows, [Some(c)]).rows;
            forall i :: 0 <= i < |rows| ==>
              if rows[i].id == c.id.value
              then Schedules.Overwritten(rows[i], r[i], c.start_time, c.endTime, c.isWorkDay, c.timeSlotDuration)
              else r[i] == rows[i]
  {
    assert [Some(c)][..0] == [];
    var r := UpdateChangedDailySchedules(rows, [Some(c)]).rows;
    forall i | 0 <= i < |rows|
      ensures if rows[i].id == c.id.value
              then Schedules.Overwritten(rows[i], r[i], c.start_time, c.endTime, c.isWorkDay, c.timeSlotDuration)
              else r[i] == rows[i]
    {
      assert [c][..0] == [];
    }
  }

  /** An element shaped like a stored row (`end_time`, `is_workDay`, `time_slot_duration`,
      none of the camel-case keys) overwrites the row's end time, work-day flag and slot
      duration with NULL, whatever values it carries under its own keys. */
  lemma RowShapedChangeClearsColumns(rows: seq<Schedules.DailySchedule>, c: ChangedDay, i: nat)
    requires c.endTime.None? && c.isWorkDay.None? && c.timeSlotDuration.None?
    requires i < |rows| && c.id == Some(rows[i].id)
    ensures var r := UpdateChangedDailySchedules(rows, [Some(c)]).rows;
            && r[i].startTime == c.start_time
            && r[i].endTime.None? && r[i].isWorkDay.None? && r[i].timeSlotDuration.None?
  {
    assert [Some(c)][..0] == [];
    assert [c][..0] == [];
  }

  /** A `null` element answers "Server error", yet the element after it has updated its row. */
  lemma NullChangeFailsAfterUpdating(rows: seq<Schedules.DailySchedule>, c: ChangedDay, i: nat)
    requires i < |rows| && c.id == Some(rows[i].id)
    ensures var r := UpdateChangedDailySchedules(rows, [None, Some(c)]);
            && r.reply == Failure("Server error")
            && Schedules.Overwritten(rows[i], r.rows[i], c.start_time, c.endTime, c.isWorkDay, c.timeSlotDuration)
  {
    var arr: seq<Option<ChangedDay>> := [None, Some(c)];
    assert arr[..1] == [None] && arr[..1][..0] == [];
    assert Present(arr) == [c];
    assert [c][..0] == [];
    assert arr[0].None?;
  }

  // ---- GET /appointments/get-all-future-appointments/:owner_id -------------------------

  /** `result.map(res => ({ ...res, date: addDayToDate(res.date) }))`. The date shift is
      a parameter: it depends on the host's time zone. */
  function ShiftDates(rows: seq<Appointments.Appointment>, addDay: Date -> Date): (r: seq<Appointments.Appointment>)
    ensures |r| == |rows|
    ensures forall i :: 0 <= i < |rows| ==> r[i].date == addDay(rows[i].date) && r[i].(date := rows[i].date) == rows[i]
  {
    seq(|rows|, (i: int) requires 0 <= i < |rows| => rows[i].(date := addDay(rows[i].date)))
  }

  /** The future-appointments handler body: the owner's appointments from `today` on,
      each with only its date shifted, in the order read. `result.length >= 0` always
      holds, so the reply is always this list. */
  function FutureAppointments(rows: seq<Appointments.Appointment>, owner: OwnerId, today: Date,
                              addDay: Date -> Date): (r: seq<Appointments.Appointment>)
    ensures |r| == |Appointments.ReadAllOwnerFutureAppointments(rows, owner, today)|
    ensures forall k :: 0 <= k < |r| ==>
      var found := Appointments.ReadAllOwnerFutureAppointments(rows, owner, today)[k];
      && r[k] == found.(date := addDay(found.date))
      && r[k].ownerId == owner
      && found in rows
      && found.date >= today
    ensures forall i :: 0 <= i < |rows| && rows[i].ownerId == owner && rows[i].date >= today ==>
      rows[i].(date := addDay(rows[i].date)) in r
  {
    var found := Appointments.ReadAllOwnerFutureAppointments(rows, owner, today);
    var r := ShiftDates(found, addDay);
    assert forall i :: 0 <= i < |rows| && rows[i].ownerId == owner && rows[i].date >= today ==>
      rows[i].(date := addDay(rows[i].date)) in r by {
      forall i | 0 <= i < |rows| && rows[i].ownerId == owner && rows[i].date >= today
        ensures rows[i].(date := addDay(rows[i].date)) in r
      {
        var k :| 0 <= k < |found| && found[k] == rows[i];
        assert r[k] == rows[i].(date := addDay(rows[i].date));
      }
    }
    r
  }

  // ---- POST /appointments/check-overlap ------------------------------------------------

  datatype Verdict = NotOverlapping | Overlapping

  /** The check-overlap handler body: "Not overlapping" exactly when checkOverlaps
      returned no row. */
  function CheckOverlap(rows: seq<Appointments.Appointment>, owner: OwnerId, date: Date,
                        start: Time, end: Time): (v: Verdict)
    ensures v == NotOverlapping <==> Appointments.CheckOverlaps(rows, owner, date, start, end) == []
  {
    if |Appointments.CheckOverlaps(rows, owner, date, start, end)| == 0 then NotOverlapping else Overlapping
  }

  /** When the owner's appointments on the date are well-formed, the verdict is
      "Overlapping" exactly when one of them satisfies `start < pEnd && pStart < end`;
      rows of other owners and dates may be anything. */
  lemma CheckOverlapMeansShared(rows: seq<Appointments.Appointment>, owner: OwnerId, date: Date,
                                start: Time, end: Time)
    requires Appointments.DayWellFormed(rows, owner, date)
    ensures CheckOverlap(rows, owner, date, start, end) == Overlapping
            <==> exists i :: 0 <= i < |rows| && rows[i].ownerId == owner && rows[i].date == date
                             && Appointments.IntervalsOverlap(rows[i].start, rows[i].end, start, end)
  {
    var r := Appointments.CheckOverlaps(rows, owner, date, start, end);
    if r != [] {
      var i :| 0 <= i < |rows| && rows[i] == r[0];
      assert Appointments.WellFormed(rows[i]);
    }
  }

  /** An owner has one appointment on a date from 09:00 to 10:00 (minutes 540 to 600):
      08:30-09:30 and 09:15-09:45 clash, 10:00-11:00 only touches it, and the same times
      on the next day are free. */
  lemma BookingScenario()
    ensures var rows := [Appointments.Appointment(1, "O1", 7, 540, 600, 100, 3, "")];
            && CheckOverlap(rows, "O1", 100, 510, 570) == Overlapping
            && CheckOverlap(rows, "O1", 100, 600, 660) == NotOverlapping
            && CheckOverlap(rows, "O1", 100, 555, 585) == Overlapping
            && CheckOverlap(rows, "O1", 101, 510, 570) == NotOverlapping
  {
    var rows := [Appointments.Appointment(1, "O1", 7, 540, 600, 100, 3, "")];
    assert rows[0] in Appointments.CheckOverlaps(rows, "O1", 100, 510, 570);
    assert rows[0] in Appointments.CheckOverlaps(rows, "O1", 100, 555, 585);
  }

  /** The endpoint only checks that the four fields are present, so an empty proposal
      (start == end) or a reversed one (end < start) reaches the query. Against a stored
      09:00-11:00 appointment both are reported "Overlapping", although neither proposal
      covers any instant. */
  lemma DegenerateProposalClashes()
    ensures var rows := [Appointments.Appointment(1, "O1", 7, 540, 660, 100, 3, "")];
            && Appointments.AllWellFormed(rows)
            && CheckOverlap(rows, "O1", 100, 600, 600) == Overlapping
            && CheckOverlap(rows, "O1", 100, 630, 570) == Overlapping
  {
    var rows := [Appointments.Appointment(1, "O1", 7, 540, 660, 100, 3, "")];
    assert rows[0] in Appointments.CheckOverlaps(rows, "O1", 100, 600, 600);
    assert rows[0] in Appointments.CheckOverlaps(rows, "O1", 100, 630, 570);
  }
}

=== FILE: rows.dfy ===
/** Table semantics shared by every statement: a table is the sequence of its rows in
    storage order, `SELECT ... WHERE` keeps the matching rows, `UPDATE ... WHERE` rewrites
    them in place. */
module Rows {

  /** What an UPDATE reports back: the new table and the number of rows its WHERE matched. */
  datatype Written<R> = Written(rows: seq<R>, affectedRows: nat)

  /** `SELECT * ... WHERE p`: the rows satisfying `p`, in table order, each as many times
      as the table holds it (`SelectCount`). */
  function Select<R>(rows: seq<R>, p: R -> bool): (r: seq<R>)
    ensures |r| <= |rows|
    ensures forall k :: 0 <= k < |r| ==> r[k] in rows && p(r[k])
    ensures forall i :: 0 <= i < |rows| && p(rows[i]) ==> rows[i] in r
  {
    if rows == [] then []
    else
      assert forall i :: 1 <= i < |rows| ==> rows[i] == rows[1..][i - 1];
      if p(rows[0]) then [rows[0]] + Select(rows[1..], p) else Select(rows[1..], p)
  }

  /** How many rows of the table equal `x`. */
  function Count<R(==)>(rows: seq<R>, x: R): nat {
    if rows == [] then 0 else (if rows[0] == x then 1 else 0) + Count(rows[1..], x)
  }

  /** A SELECT returns each matching row as many times as the table holds it, and no
      other row. */
  lemma {:induction false} SelectCount<R>(rows: seq<R>, p: R -> bool, x: R)
    ensures Count(Select(rows, p), x) == if p(x) then Count(rows, x) else 0
  {
    if rows != [] {
      SelectCount(rows[1..], p, x);
      if p(rows[0]) {
        assert ([rows[0]] + Select(rows[1..], p))[1..] == Select(rows[1..], p);
      }
    }
  }

  /** `UPDATE ... SET f WHERE p`: each row satisfying `p` becomes `f` of itself in place;
      the others stay. */
  function UpdateWhere<R>(rows: seq<R>, p: R -> bool, f: R -> R): (r: seq<R>)
    ensures |r| == |rows|
    ensures forall i :: 0 <= i < |rows| && !p(rows[i]) ==> r[i] == rows[i]
    ensures forall i :: 0 <= i < |rows| && p(rows[i]) ==> r[i] == f(rows[i])
  {
    if rows == [] then []
    else [if p(rows[0]) then f(rows[0]) else rows[0]] + UpdateWhere(rows[1..], p, f)
  }

  /** `key` is a primary key of the table: no two rows share it. */
  predicate UniqueBy<R>(rows: seq<R>, key: R -> int) {
    forall i, j :: 0 <= i < j < |rows| ==> key(rows[i]) != key(rows[j])
  }

  /** At most one position satisfies `p` (what a primary key gives an `id = ?` filter). */
  ghost predicate AtMostOne<R>(rows: seq<R>, p: R -> bool) {
    forall i, j :: 0 <= i < j < |rows| && p(rows[i]) ==> !p(rows[j])
  }

  /** `affectedRows` of an UPDATE: the number of rows its WHERE matched. */
  function Affected<R>(rows: seq<R>, p: R -> bool): (n: nat)
    ensures n == 0 <==> forall i :: 0 <= i < |rows| ==> !p(rows[i])
    ensures AtMostOne(rows, p) ==> n <= 1
  {
    var n := |Select(rows, p)|;
    assert n != 0 ==> exists i :: 0 <= i < |rows| && p(rows[i]) by {
      if n != 0 {
        var x := Select(rows, p)[0];
        var i :| 0 <= i < |rows| && rows[i] == x;
        assert p(rows[i]);
      }
    }
    assert AtMostOne(rows, p) ==> n <= 1 by {
      if AtMostOne(rows, p) {
        SelectAtMostOne(rows, p);
      }
    }
    n
  }

  /** The full UPDATE statement: the rewritten table and its affected-row count. */
  function Update<R>(rows: seq<R>, p: R -> bool, f: R -> R): Written<R> {
    Written(UpdateWhere(rows, p, f), Affected(rows, p))
  }

  lemma {:induction false} SelectAtMostOne<R>(rows: seq<R>, p: R -> bool)
    requires AtMostOne(rows, p)
    ensures |Select(rows, p)| <= 1
  {
    if rows != [] {
      var tail := rows[1..];
      if p(rows[0]) {
        forall k | 0 <= k < |tail|
          ensures !p(tail[k])
        {
          assert tail[k] == rows[k + 1];
        }
        SelectNone(tail, p);
      } else {
        assert AtMostOne(tail, p) by {
          forall i, j | 0 <= i < j < |tail| && p(tail[i])
            ensures !p(tail[j])
          {
            assert tail[i] == rows[i + 1] && tail[j] == rows[j + 1];
          }
        }
        SelectAtMostOne(tail, p);
      }
    }
  }

  /** A filter no row passes returns nothing. */
  lemma {:induction false} SelectNone<R>(rows: seq<R>, p: R -> bool)
    requires forall i :: 0 <= i < |rows| ==> !p(rows[i])
    ensures Select(rows, p) == []
  {
    if rows != [] {
      SelectNone(rows[1..], p);
    }
  }

  /** Selecting from two stretches of a table selects from each, in order. */
  lemma {:induction false} SelectAppend<R>(a: seq<R>, b: seq<R>, p: R -> bool)
    ensures Select(a + b, p) == Select(a, p) + Select(b, p)
  {
    if a == [] {
      assert a + b == b;
    } else {
      assert (a + b)[0] == a[0];
      assert (a + b)[1..] == a[1..] + b;
      SelectAppend(a[1..], b, p);
    }
  }

  /** A filter that every row passes returns the whole table, order and duplicates included. */
  lemma {:induction false} SelectAll<R>(rows: seq<R>, p: R -> bool)
    requires forall i :: 0 <= i < |rows| ==> p(rows[i])
    ensures Select(rows, p) == rows
  {
    if rows != [] {
      SelectAll(rows[1..], p);
    }
  }

  /** Filters that agree on every row of the table select the same sequence. */
  lemma {:induction false} SelectSameFilter<R>(rows: seq<R>, p: R -> bool, q: R -> bool)
    requires forall i :: 0 <= i < |rows| ==> p(rows[i]) == q(rows[i])
    ensures Select(rows, p) == Select(rows, q)
  {
    if rows != [] {
      SelectSameFilter(rows[1..], p, q);
    }
  }

  /** Filtering twice is filtering once by the conjunction. */
  lemma {:induction false} SelectSelect<R>(rows: seq<R>, p: R -> bool, q: R -> bool, both: R -> bool)
    requires forall i :: 0 <= i < |rows| ==> both(rows[i]) == (p(rows[i]) && q(rows[i]))
    ensures Select(Select(rows, p), q) == Select(rows, both)
  {
    if rows != [] {
      SelectSelect(rows[1..], p, q, both);
      if p(rows[0]) {
        assert Select(rows, p) == [rows[0]] + Select(rows[1..], p);
        SelectAppend([rows[0]], Select(rows[1..], p), q);
      }
    }
  }

  /** Two UPDATEs with the same WHERE, where the first keeps its rows matched, equal one
      UPDATE by the composed rewrite. */
  lemma UpdateTwice<R>(rows: seq<R>, p: R -> bool, f: R -> R, g: R -> R, h: R -> R)
    requires forall i :: 0 <= i < |rows| && p(rows[i]) ==> p(f(rows[i])) && g(f(rows[i])) == h(rows[i])
    ensures UpdateWhere(UpdateWhere(rows, p, f), p, g) == UpdateWhere(rows, p, h)
  {
  }
}

=== FILE: schedules.dfy ===
/** The `dailySchedule` table: one row per day of a work week, created by insert, read by
    work week, and overwritten column by column (NULLs included) by id. */
module Schedules {
  import opened Columns
  import Rows

  /** A dailySchedule row. Every column but `id` is nullable: the insert and the update
      store whatever they are handed, NULL included. */
  datatype DailySchedule = DailySchedule(
    id: nat,
    dayOfWeek: Option<string>,
    startTime: Option<Time>,
    endTime: Option<Time>,
    workweekId: Option<int>,
    isWorkDay: Option<bool>,
    timeSlotDuration: Option<nat>)

  /** The table together with its AUTO_INCREMENT counter, the id the next insert receives. */
  datatype ScheduleTable = ScheduleTable(rows: seq<DailySchedule>, nextId: nat)

  /** The primary key. */
  function IdOf(d: DailySchedule): int {
    d.id
  }

  /** Primary-key discipline: ids are distinct and below the counter. */
  predicate Valid(t: ScheduleTable) {
    && (forall i :: 0 <= i < |t.rows| ==> t.rows[i].id < t.nextId)
    && Rows.UniqueBy(t.rows, IdOf)
  }

  /** What an INSERT reports back: the new table and `insertId`. */
  datatype Inserted = Inserted(table: ScheduleTable, insertId: nat)

  /** A row holds exactly the six values createDailySchedule binds, under the given id. */
  predicate Holds(row: DailySchedule, id: nat, day: Option<string>, startTime: Option<Time>, endTime: Option<Time>,
                  workweekId: Option<int>, isWorkDay: Option<bool>, timeSlotDuration: Option<nat>) {
    && row.id == id
    && row.dayOfWeek == day
    && row.startTime == startTime
    && row.endTime == endTime
    && row.workweekId == workweekId
    && row.isWorkDay == isWorkDay
    && row.timeSlotDuration == timeSlotDuration
  }

  // ---- createDailySchedule -------------------------------------------------------------

  /** createDailySchedule(day, startTime, endTime, workweek_id, isWorkDay, timeSlotDuration):
      appends one row carrying the six values under the next auto-increment id. */
  function CreateDailySchedule(t: ScheduleTable, day: Option<string>, startTime: Option<Time>, endTime: Option<Time>,
                               workweekId: Option<int>, isWorkDay: Option<bool>, timeSlotDuration: Option<nat>): (r: Inserted)
    ensures |r.table.rows| == |t.rows| + 1
    ensures r.table.rows[..|t.rows|] == t.rows
    ensures Holds(r.table.rows[|t.rows|], r.insertId, day, startTime, endTime, workweekId, isWorkDay, timeSlotDuration)
    ensures r.table.nextId == r.insertId + 1
    ensures Valid(t) ==> Valid(r.table) && forall i :: 0 <= i < |t.rows| ==> t.rows[i].id != r.insertId
  {
    var row := DailySchedule(t.nextId, day, startTime, endTime, workweekId, isWorkDay, timeSlotDuration);
    Inserted(ScheduleTable(t.rows + [row], t.nextId + 1), t.nextId)
  }

  // ---- readWeeklySchedule --------------------------------------------------------------

  /** `workWeek_id = ?` (MySQL column names are case-insensitive, so this is the
      `workweek_id` column); a NULL column never matches. */
  function InWeek(workWeekId: int): DailySchedule -> bool {
    (d: DailySchedule) => d.workweekId == Some(workWeekId)
  }

  /** `SELECT * FROM dailySchedule WHERE workWeek_id = ?` */
  function ReadWeeklySchedule(rows: seq<DailySchedule>, workWeekId: int): (r: seq<DailySchedule>)
    ensures forall k :: 0 <= k < |r| ==> r[k] in rows && r[k].workweekId == Some(workWeekId)
    ensures forall i :: 0 <= i < |rows| && rows[i].workweekId == Some(workWeekId) ==> rows[i] in r
    ensures forall x :: Rows.Count(r, x) == if x.workweekId == Some(workWeekId) then Rows.Count(rows, x) else 0
  {
    var r := Rows.Select(rows, InWeek(workWeekId));
    assert forall x :: Rows.Count(r, x) == if x.workweekId == Some(workWeekId) then Rows.Count(rows, x) else 0 by {
      forall x {
        Rows.SelectCount(rows, InWeek(workWeekId), x);
      }
    }
    r
  }

  /** Reading a week after an insert: the new row is appended to the week it is tagged
      with, and no other week changes. */
  lemma ReadAfterCreate(t: ScheduleTable, day: Option<string>, startTime: Option<Time>, endTime: Option<Time>,
                        workweekId: Option<int>, isWorkDay: Option<bool>, timeSlotDuration: Option<nat>, week: int)
    ensures var r := CreateDailySchedule(t, day, startTime, endTime, workweekId, isWorkDay, timeSlotDuration);
            ReadWeeklySchedule(r.table.rows, week)
            == ReadWeeklySchedule(t.rows, week)
               + (if workweekId == Some(week) then [r.table.rows[|t.rows|]] else [])
  {
    var r := CreateDailySchedule(t, day, startTime, endTime, workweekId, isWorkDay, timeSlotDuration);
    var row := r.table.rows[|t.rows|];
    assert r.table.rows == t.rows + [row];
    Rows.SelectAppend(t.rows, [row], InWeek(week));
  }

  // ---- updateDailySchedule -------------------------------------------------------------

  /** `WHERE id = ?`, where the parameter may be NULL and then matches nothing. */
  function IdIs(id: Option<nat>): DailySchedule -> bool {
    (d: DailySchedule) => EqualsParam(d.id, id)
  }

  /** The SET list of updateDailySchedule: four unconditional assignments. */
  function Overwrite(startTime: Option<Time>, endTime: Option<Time>, isWorkDay: Option<bool>,
                     timeSlotDuration: Option<nat>): DailySchedule -> DailySchedule {
    (d: DailySchedule) => d.(startTime := startTime, endTime := endTime, isWorkDay := isWorkDay,
                             timeSlotDuration := timeSlotDuration)
  }

  /** The row after an overwrite carries the four new values and keeps id, day and week. */
  predicate Overwritten(before: DailySchedule, after: DailySchedule, startTime: Option<Time>, endTime: Option<Time>,
                        isWorkDay: Option<bool>, timeSlotDuration: Option<nat>) {
    Holds(after, before.id, before.dayOfWeek, startTime, endTime, before.workweekId, isWorkDay, timeSlotDuration)
  }

  /** updateDailySchedule(start_time, end_time, isWorkDay, timeSlotDuration, dailySchedule_id). */
  function UpdateDailySchedule(rows: seq<DailySchedule>, startTime: Option<Time>, endTime: Option<Time>,
                               isWorkDay: Option<bool>, timeSlotDuration: Option<nat>,
                               id: Option<nat>): (r: Rows.Written<DailySchedule>)
    ensures |r.rows| == |rows|
    ensures forall i :: 0 <= i < |rows| && id != Some(rows[i].id) ==> r.rows[i] == rows[i]
    ensures forall i :: 0 <= i < |rows| && id == Some(rows[i].id) ==>
      Overwritten(rows[i], r.rows[i], startTime, endTime, isWorkDay, timeSlotDuration)
    ensures r.affectedRows == 0 <==> id.None? || forall i :: 0 <= i < |rows| ==> rows[i].id != id.value
    ensures Rows.UniqueBy(rows, IdOf) ==> r.affectedRows <= 1
  {
    var r := Rows.Update(rows, IdIs(id), Overwrite(startTime, endTime, isWorkDay, timeSlotDuration));
    assert Rows.UniqueBy(rows, IdOf) ==> Rows.AtMostOne(rows, IdIs(id));
    r
  }

  /** An overwrite does not depend on what the row held: updating twice by the same id
      leaves what the second update wrote. */
  lemma UpdateDailyScheduleLastWins(rows: seq<DailySchedule>, id: Option<nat>,
                                    s1: Option<Time>, e1: Option<Time>, w1: Option<bool>, d1: Option<nat>,
                                    s2: Option<Time>, e2: Option<Time>, w2: Option<bool>, d2: Option<nat>)
    ensures UpdateDailySchedule(UpdateDailySchedule(rows, s1, e1, w1, d1, id).rows, s2, e2, w2, d2, id).rows
         == UpdateDailySchedule(rows, s2, e2, w2, d2, id).rows
  {
    Rows.UpdateTwice(rows, IdIs(id), Overwrite(s1, e1, w1, d1), Overwrite(s2, e2, w2, d2), Overwrite(s2, e2, w2, d2));
  }

  /** An overwrite never moves a row to another week, so every week keeps its size. */
  lemma UpdateKeepsWeekSizes(rows: seq<DailySchedule>, startTime: Option<Time>, endTime: Option<Time>,
                             isWorkDay: Option<bool>, timeSlotDuration: Option<nat>, id: Option<nat>, week: int)
    ensures |ReadWeeklySchedule(UpdateDailySchedule(rows, startTime, endTime, isWorkDay, timeSlotDuration, id).rows, week)|
         == |ReadWeeklySchedule(rows, week)|
  {
    var after := UpdateDailySchedule(rows, startTime, endTime, isWorkDay, timeSlotDuration, id).rows;
    UpdatedWeekSize(rows, after, week);
  }

  /** A week holding no row with the updated id reads exactly as before. */
  lemma UpdateLeavesOtherWeeks(rows: seq<DailySchedule>, startTime: Option<Time>, endTime: Option<Time>,
                               isWorkDay: Option<bool>, timeSlotDuration: Option<nat>, id: Option<nat>, week: int)
    requires forall i :: 0 <= i < |rows| && rows[i].workweekId == Some(week) ==> id != Some(rows[i].id)
    ensures ReadWeeklySchedule(UpdateDailySchedule(rows, startTime, endTime, isWorkDay, timeSlotDuration, id).rows, week)
         == ReadWeeklySchedule(rows, week)
  {
    var after := UpdateDailySchedule(rows, startTime, endTime, isWorkDay, timeSlotDuration, id).rows;
    UntouchedWeek(rows, after, week);
  }

  /** Two tables of equal length whose rows agree position by position on their week
      select weeks of the same size. */
  lemma {:induction false} UpdatedWeekSize(a: seq<DailySchedule>, b: seq<DailySchedule>, week: int)
    requires |a| == |b|
    requires forall i :: 0 <= i < |a| ==> a[i].workweekId == b[i].workweekId
    ensures |ReadWeeklySchedule(b, week)| == |ReadWeeklySchedule(a, week)|
  {
    if a != [] {
      UpdatedWeekSize(a[1..], b[1..], week);
    }
  }

  /** Tables that agree on every row of a week, and on which rows are in it, read the
      same week. */
  lemma {:induction false} UntouchedWeek(a: seq<DailySchedule>, b: seq<DailySchedule>, week: int)
    requires |a| == |b|
    requires forall i :: 0 <= i < |a| ==> a[i].workweekId == b[i].workweekId
    requires forall i :: 0 <= i < |a| && a[i].workweekId == Some(week) ==> a[i] == b[i]
    ensures ReadWeeklySchedule(b, week) == ReadWeeklySchedule(a, week)
  {
    if a != [] {
      UntouchedWeek(a[1..], b[1..], week);
    }
  }
}

=== FILE: services.dfy ===
/** The `services` table and its NULL-preserving update. */
module Services {
  import opened Columns
  import Rows

  datatype Service = Service(
    id: nat,
    name: string,
    description: string,
    duration: nat,
    price: int,
    ownerId: OwnerId,
    imgUrl: string)

  /** `WHERE id = ?` */
  function HasId(id: nat): Service -> bool {
    (s: Service) => s.id == id
  }

  /** The SET list of updateService: five CASE WHEN assignments. */
  function Amend(name: Option<string>, description: Option<string>, duration: Option<nat>,
                 price: Option<int>, imgUrl: Option<string>): Service -> Service {
    (s: Service) => s.(name := Patch(name, s.name), description := Patch(description, s.description),
                       duration := Patch(duration, s.duration), price := Patch(price, s.price),
                       imgUrl := Patch(imgUrl, s.imgUrl))
  }

  /** updateService(name, description, duration, price, service_id, img_url). */
  function UpdateService(rows: seq<Service>, name: Option<string>, description: Option<string>,
                         duration: Option<nat>, price: Option<int>, serviceId: nat,
                         imgUrl: Option<string>): (r: Rows.Written<Service>)
    ensures |r.rows| == |rows|
    ensures forall i :: 0 <= i < |rows| && rows[i].id != serviceId ==> r.rows[i] == rows[i]
    ensures forall i :: 0 <= i < |rows| && rows[i].id == serviceId ==>
      && r.rows[i].id == serviceId
      && r.rows[i].ownerId == rows[i].ownerId
      && Patched(name, rows[i].name, r.rows[i].name)
      && Patched(description, rows[i].description, r.rows[i].description)
      && Patched(duration, rows[i].duration, r.rows[i].duration)
      && Patched(price, rows[i].price, r.rows[i].price)
      && Patched(imgUrl, rows[i].imgUrl, r.rows[i].imgUrl)
    ensures r.affectedRows == 0 <==> forall i :: 0 <= i < |rows| ==> rows[i].id != serviceId
  {
    Rows.Update(rows, HasId(serviceId), Amend(name, description, duration, price, imgUrl))
  }

  /** Two updates of the same service equal one taking the later non-NULL value of each
      column; repeating an update changes nothing. */
  lemma UpdateServiceTwice(rows: seq<Service>, id: nat,
                           n1: Option<string>, c1: Option<string>, d1: Option<nat>, p1: Option<int>, u1: Option<string>,
                           n2: Option<string>, c2: Option<string>, d2: Option<nat>, p2: Option<int>, u2: Option<string>)
    ensures UpdateService(UpdateService(rows, n1, c1, d1, p1, id, u1).rows, n2, c2, d2, p2, id, u2).rows
         == UpdateService(rows, Later(n2, n1), Later(c2, c1), Later(d2, d1), Later(p2, p1), id, Later(u2, u1)).rows
  {
    var f := Amend(n1, c1, d1, p1, u1);
    var g := Amend(n2, c2, d2, p2, u2);
    var h := Amend(Later(n2, n1), Later(c2, c1), Later(d2, d1), Later(p2, p1), Later(u2, u1));
    forall i | 0 <= i < |rows| && HasId(id)(rows[i])
      ensures HasId(id)(f(rows[i])) && g(f(rows[i])) == h(rows[i])
    {
      var s := rows[i];
      PatchTwice(n1, n2, s.name);
      PatchTwice(c1, c2, s.description);
      PatchTwice(d1, d2, s.duration);
      PatchTwice(p1, p2, s.price);
      PatchTwice(u1, u2, s.imgUrl);
    }
    Rows.UpdateTwice(rows, HasId(id), f, g, h);
  }
}
